=== FILE: README.md ===
# homework_bot — a Dafny model of the polling bot's decision core

The bot polls a homework-review status endpoint and notifies a Telegram chat
when the review status of the latest submission changes. Almost all of
`homework.py` is I/O plumbing. This project models the pure decisions inside it:

- **Response validator** (`check_response`). A decoded JSON value is either
  rejected with a specific exception or yields its `homeworks` list.
- **Status translator** (`parse_status`) and its three-entry verdict table.
  It formats `Изменился статус проверки работы "<name>". <verdict>`.
- **Credential check** (`check_tokens`) and startup, which either terminates
  or enters the loop with cursor = now.
- **One iteration of the poll loop**, as a pure function `Bot.Step`. Its
  state is the cursor, the last status message, the "no homework" marker and
  the last error report. Its inputs are the clock, an abstract fetch outcome
  and an abstract send outcome. Its output is the requested `from_date`, the
  messages it tries to send, the new state, and whether the loop died.
  `Bot.Run` chains iterations.

Modules: `Results` (Option/Result), `PyValue` (JSON values with Python's
truthiness, `dict.get`, type names), `PyText` (Python's `str`/`repr` of those
values), `Homework` (validator, translator, exception texts, credential check),
`Bot` (loop state, step, startup, runs), `HomeworkProperties` and
`BotProperties` (lemmas).

Exception texts are modelled exactly as `str(exception)` renders them. This
matters because the loop deduplicates reports by text. A `KeyError` renders as
the `repr` of its argument, in quotes. `TypeError` and `AttributeError` render
their argument as is.

Quirks of the code the model reproduces:
- Validation failures are `TypeError` (not a mapping; `homeworks` missing or
  not a list) and `KeyError` (no `current_date`).
- `current_date` is only checked for presence. The cursor becomes whatever
  value it holds, and a falsy cursor falls back to the clock on the next request.
- A missing `homework_name` renders as `None`.
- A failed delivery of an error report is not suppressed. It escapes the loop
  (`crashed`). Only a failed status or "ДЗ нет." delivery is logged and survived.
- Only `homeworks[0]` is translated and sent.
- The dedup record is never cleared by a successful iteration.

## Model

| member | source | states |
|---|---|---|
| PyValue.Lookup | homework.py:77-82 | a key is found exactly when some entry carries it, and the value returned is bound to that key |
| PyValue.Truthy | homework.py:55 | falsy are exactly None, False, 0, the empty string, the empty list and the empty dict, as in the `or` of the cursor fallback, the `all` of the credential check and the `not verdict` test |
| PyValue.HasKey | homework.py:82 | `key in d` holds exactly when some entry of the dict carries the key |
| PyValue.Get | homework.py:77 | `d.get(key)` is None when the key is absent, and a value other than None only when the key is present |
| PyValue.GetUnique | homework.py:89 | in a dict, whose keys never repeat, `d.get(key)` is the value of the entry carrying the key |
| PyValue.TypeName | homework.py:89 | `type(x).__name__` names each of the six kinds of value by its own CPython name (NoneType, bool, int, str, list, dict), no two kinds alike; it is list or dict exactly for the unhashable values |
| PyText.DecimalRoundTrip | homework.py:98-99 | the decimal text an int is rendered with reads back as that number |
| PyText.IntToString | homework.py:98 | `str(i)` is a minus sign exactly for a negative int, followed by at least one decimal digit and only digits, with no leading zero except for 0, reading back as the magnitude |
| PyText.ReprString | homework.py:98 | `repr` of a string is its text between matching quotes, escaped so that unescaping the inside gives the string back; a text free of quotes, backslashes and control characters gains exactly a pair of single quotes |
| PyText.UnescapeEscapeAll | homework.py:98 | unescaping the escaped text between a repr's quotes gives the original string back, for any string and either quote |
| PyText.ReprStringInjective | homework.py:98 | different strings have different reprs |
| PyText.Str | homework.py:98-99 | a string renders as itself, None as `None`, a bool as `True`/`False`, an int as its `str` (sign and decimal digits), anything else as its `repr` |
| PyText.Repr | homework.py:98 | `None`, `True`, `False`; an int as its decimal text; a string as its `repr`; a list bracketed, `[]` exactly when empty and `[<repr of the item>]` for one item; a dict braced, `{}` exactly when empty |
| Homework.ClassOf | homework.py:74-98 | the validator's shape checks and an unhashable status are TypeErrors, the missing keys and an unknown status KeyErrors, a record that is not a mapping an AttributeError |
| Homework.Argument | homework.py:66-98 | each exception's argument is non-empty (except a decoder's own text); an unknown status is named in it, and so is the type of an unhashable status or of a non-mapping record |
| Homework.Report | homework.py:135 | an error report starts with the fixed prefix and continues with exactly the exception's text, so it is never a status notification nor "ДЗ нет." |
| Homework.Verdict | homework.py:33-37 | only the three string codes approved/reviewing/rejected have a verdict; it is the table's text, never empty (so `not verdict` rejects exactly the other codes), and no two codes share one |
| Homework.Describe | homework.py:73-98 | a KeyError's text is its argument between matching quotes, escaped so that the argument can be read back from it, and exactly `'<argument>'` for a plain argument; every other exception's text is its argument |
| Homework.CheckResponse | homework.py:71-84 | a non-mapping is a TypeError whatever it holds; then a missing or non-list `homeworks` is a TypeError; then a missing `current_date` is a KeyError; otherwise the `homeworks` list is returned unchanged |
| Homework.ParseStatus | homework.py:87-99 | a non-mapping record is an AttributeError, a missing `status` a KeyError, a list or dict status unhashable, any other status outside the table unknown, each with no message; a known status yields exactly the prefix, the quoted name (`None` when absent) and the verdict |
| Homework.CheckTokens | homework.py:102-104 | true iff all three tokens are present and non-empty |
| Bot.Examine | homework.py:121-124 | an unreachable endpoint fails with the fixed request error, an undecodable body with its decoder's text; an answered body fails with exactly the validator's error, or, for a non-empty list, with exactly the translator's error on the first record; otherwise the plan carries the first record's translation (or the empty-list branch, exactly for an empty list) and the response's `current_date` |
| Bot.RequestCursor | homework.py:55 | the request uses a truthy cursor as is and the clock otherwise; the result is truthy for a non-zero clock and falls back to itself, so the fallback is idempotent |
| Bot.HandleFailure | homework.py:134-139 | the iteration requests the given cursor; a failure is sent iff its report differs from the recorded one; it is recorded only when delivered; an undelivered report ends the loop; whenever the loop survives, the failure's report is the recorded one |
| Bot.Initial | homework.py:114-117 | the loop starts with the clock as cursor and empty message, marker and error record |
| Bot.Step | homework.py:118-141 | one iteration sends at most one message, requests the fallback cursor, and dies only when a failure report cannot be delivered |
| Bot.Start | homework.py:109-117 | startup terminates with the missing-token message iff a credential is missing; otherwise the loop starts with cursor = now, empty last message and marker, and no recorded error |
| Bot.Run | homework.py:118-141 | a run never makes more requests than ticks, and exactly one per tick unless it dies; a run that dies has made a request; the first request is the fallback cursor of the initial state and the first clock reading; at most one message per request |
| HomeworkProperties.StatusRoundTrip | homework.py:96-99 | the status code can be recovered from the verdict a notification ends with |
| HomeworkProperties.DistinctStatusesDistinctMessages | homework.py:33-37 | records with different statuses give different notifications |
| HomeworkProperties.TextKindsDisjoint | homework.py:99 | status notifications, error reports and "ДЗ нет." never coincide |
| HomeworkProperties.ParsedIsStatusChange | homework.py:99 | every translation starts with the status-change prefix and is not "ДЗ нет." |
| HomeworkProperties.CheckResponseReadsTwoFields | homework.py:73-83 | the validator's verdict depends only on whether the value is a mapping, its `homeworks` value and the presence of `current_date` |
| HomeworkProperties.UnknownStatusFails | homework.py:96-98 | an unknown status string is a KeyError naming it, and no message is produced |
| HomeworkProperties.ApprovedExample | homework.py:89-99 | an approved `hw1` yields the approval notification |
| HomeworkProperties.NamelessExample | homework.py:89 | a record without `homework_name` is announced with the name `None` |
| HomeworkProperties.ArrayResponseExample | homework.py:73-76 | any JSON array is rejected as not a mapping, with the validator's wording |
| HomeworkProperties.MissingDateExample | homework.py:82-83 | a response without `current_date` is rejected as a KeyError |
| BotProperties.StatusChangeIteration | homework.py:123-131 | with a non-empty list only the first record is sent; the last message is updated even if delivery fails; the cursor moves to `current_date` only if delivery succeeds; the dedup record is kept |
| BotProperties.EmptyListIteration | homework.py:127-131 | with an empty list "ДЗ нет." is attempted iff the marker equals the last status message, the marker then becomes "ДЗ нет.", and the cursor moves unless that send failed |
| BotProperties.FailedIteration | homework.py:132-139 | a failing iteration keeps the cursor, reports only a new error text, records it only when delivered, and dies when its report is undelivered |
| BotProperties.LastErrorOnlyFromReports | homework.py:136-139 | the dedup record changes only to a delivered error report |
| BotProperties.CursorOnlyFromValidResponse | homework.py:131 | the cursor changes only to the `current_date` of a validated response |
| BotProperties.RequestCursorFallback | homework.py:55 | with a non-zero clock the requested `from_date` is truthy; the fallback is idempotent; 0 and None fall back to now |
| BotProperties.RepeatedFailureSuppressed | homework.py:134-139 | two consecutive iterations failing with the same report notify at most once |
| BotProperties.PersistentFailureReportedOnce | homework.py:118-141 | a failure that persists over any number of iterations is reported at most once and never moves the cursor; when the cursor is truthy, every retry requests that same cursor |
| BotProperties.StepKeepsConsistent | homework.py:115-130 | an iteration keeps the marker in {"", "ДЗ нет."} and the last message empty or a status change, and spends the "ДЗ нет." budget |
| BotProperties.NoHomeworkWithinBudget | homework.py:123-130 | over any run, "ДЗ нет." is sent at most once, and never once the marker differs from the last message |
| BotProperties.NoHomeworkAtMostOnce | homework.py:114-130 | from startup on, "ДЗ нет." is attempted at most once per run |
| BotProperties.ArrayResponseIteration | homework.py:73-76 | a JSON array fails the iteration with the validator's TypeError report, sent unless already recorded, and keeps the cursor |
| BotProperties.UnknownStatusIteration | homework.py:96-98 | an unknown status on the first record sends no status notification, only the KeyError report naming it (unless already recorded), and keeps the last message and the cursor |
| BotProperties.CrashEndsRun | homework.py:138 | once an undelivered report ends the loop, later ticks add no request, no message and no state change |
| HomeworkProperties.ReportsCompareByDescription | homework.py:135-136 | two failures give the same report exactly when their exception texts agree |
| HomeworkProperties.KeyErrorReportsKeepArguments | homework.py:135-136 | two KeyErrors share a report only when they share an argument |
| HomeworkProperties.MissingKeyReportsDiffer | homework.py:83 | the missing-`current_date` and missing-`status` KeyErrors are reported with different texts, so deduplication keeps them apart |
| HomeworkProperties.UnknownStatusReportsDiffer | homework.py:98 | two different unknown status strings, whatever quotes or backslashes they hold, are reported with different texts, so deduplication keeps them apart |
| HomeworkProperties.OtherReportsKeepArguments | homework.py:135-136 | two failures other than KeyErrors share a report exactly when they share an argument |
| HomeworkProperties.FixedArgumentsDistinct | homework.py:66-80 | the texts of the request failure and of the validator's two TypeErrors differ pairwise |
| HomeworkProperties.FixedReportsDistinct | homework.py:135-136 | an unreachable endpoint, a response that is not a mapping and a non-list `homeworks` give three different reports, so deduplication keeps them apart |
| HomeworkProperties.UnhashableReportsDiffer | homework.py:96 | a list status and a dict status give different unhashable-type reports |
| BotProperties.EmptyCredentialsTerminate | homework.py:109-112 | empty or missing credentials terminate startup |
| BotProperties.ApprovedScenario | homework.py:118-131 | an approved-`hw1` response with `current_date` 1700000000 yields the approval notification and cursor 1700000000 |
| BotProperties.UnavailableTwiceScenario | homework.py:57-66 | an unavailable endpoint twice gives one report, the same `from_date` twice and an unchanged cursor |

## Left out

- HTTP transport, the status-code check, the `Authorization` header and `.json()` decoding (homework.py:28-30, 57-68). A request is an abstract `FetchOutcome`: an answer, unreachable, or an undecodable body with the decoder's opaque text.
- Telegram: bot construction and `bot.send_message` (homework.py:40-50, 113). Each iteration sends at most one message, so its delivery is one boolean per tick. Exceptions other than Telegram errors from the send are not modelled.
- Logging (homework.py:14-21 and every log call), `load_dotenv` and `os.getenv` (homework.py:12, 24-26). The three tokens are parameters of `Start`.
- `time.sleep(RETRY_TIME)` and `time.time()`: the clock is a parameter of each tick, and the sleep in `finally` has no observable effect on the modelled state.
- `sys.exit` is the `Terminated` result of `Bot.Start`.
- The `exceptions` module is not part of this model. `NotSendMessageError` is represented by a failed delivery.
- JSON floating-point numbers are not modelled. JSON objects are ordered entry lists; lookups take the first entry with a key, which agrees with Python for any dict, since a dict never repeats a key.
- PyText.ReprString: non-ASCII characters that Python treats as non-printable are kept as is rather than escaped; ASCII control characters, quotes and backslashes are escaped as Python does.
- PyText.Repr: the text inside the brackets of a list with two or more items, and inside the braces of a non-empty dict, is not stated; such values reach a message only as a non-string `homework_name` or an unhashable status, whose report names only the type.
- PyText.Str: inherits the gap of PyText.Repr for lists with two or more items and non-empty dicts.

=== FILE: bot.dfy ===
/** The bot's startup check and one iteration of its polling loop, as pure
    functions of an explicit loop state and abstract fetch and send outcomes. */
module Bot {
  import opened Results
  import opened PyValue
  import opened Homework

  /** The loop's variables: the request cursor, the last status notification,
      the "no homework" marker and the last error report sent. */
  datatype LoopState = LoopState(
    cursor: Json,
    message: string,
    noHomework: string,
    lastError: string)

  /** What one request to the status endpoint gives back. */
  datatype FetchOutcome =
    | Answered(body: Json)          // status 200 and a decodable body
    | Unreachable                   // transport error or a status other than 200
    | Undecodable(reason: string)   // status 200 but the body is not JSON

  /** The environment of one iteration: the clock, the endpoint's answer and
      whether the chat accepts the (single) message this iteration sends. */
  datatype Tick = Tick(now: int, fetch: FetchOutcome, sendOk: bool)

  /** What one iteration does: the `from_date` it requests, the messages it
      tries to send, the state it leaves and whether the loop died. */
  datatype StepResult = StepResult(
    fromDate: Json,
    sent: seq<string>,
    next: LoopState,
    crashed: bool)

  /** What a successful validation leads to: a status notification, or the
      empty-list branch; both carry the response's `current_date`. */
  datatype Plan =
    | StatusChanged(text: string, date: Json)
    | NoHomeworks(date: Json)

  datatype Startup = Terminated(reason: string) | Running(state: LoopState)

  /** The `from_date` the request carries: the cursor, or the current time
      when the cursor is falsy. */
  function RequestCursor(cursor: Json, now: int): (r: Json)
    ensures Truthy(cursor) ==> r == cursor
    ensures !Truthy(cursor) ==> r == JInt(now)
    ensures now != 0 ==> Truthy(r)
    ensures Truthy(r) || r == JInt(now)
  {
    if Truthy(cursor) then cursor else JInt(now)
  }

  /** Everything the body of the loop does before it sends: fetch, validate
      and, for a non-empty list, translate the first record. */
  function Examine(fetch: FetchOutcome): (r: Result<Plan, Failure>)
    ensures fetch.Unreachable? ==> r == Err(RequestFailed)
    ensures fetch.Undecodable? ==> r == Err(BodyNotJson(fetch.reason))
    ensures r.Ok? ==> fetch.Answered? && CheckResponse(fetch.body).Ok?
                      && r.value.date == Get(fetch.body, "current_date")
    ensures r.Ok? && r.value.NoHomeworks? <==>
      fetch.Answered? && CheckResponse(fetch.body) == Ok([])
    ensures fetch.Answered? && CheckResponse(fetch.body).Err? ==>
      r == Err(CheckResponse(fetch.body).error)
    ensures fetch.Answered? && CheckResponse(fetch.body).Ok? && CheckResponse(fetch.body).value != [] ==>
      var first := CheckResponse(fetch.body).value[0];
      r == (if ParseStatus(first).Ok?
            then Ok(StatusChanged(ParseStatus(first).value, Get(fetch.body, "current_date")))
            else Err(ParseStatus(first).error))
  {
    match fetch
    case Unreachable => Err(RequestFailed)
    case Undecodable(reason) => Err(BodyNotJson(reason))
    case Answered(body) =>
      var homeworks :- CheckResponse(body);
      var date := Get(body, "current_date");
      if |homeworks| > 0 then
        var text :- ParseStatus(homeworks[0]);
        Ok(StatusChanged(text, date))
      else
        Ok(NoHomeworks(date))
  }

  /** The generic exception handler: report a failure unless it repeats the
      last report. A failed delivery here is not caught and ends the loop. */
  function HandleFailure(s: LoopState, fromDate: Json, f: Failure, sendOk: bool): (r: StepResult)
    ensures r.fromDate == fromDate
    ensures r.next.cursor == s.cursor && r.next.message == s.message
            && r.next.noHomework == s.noHomework
    ensures r.sent == [] <==> Report(f) == s.lastError
    ensures r.sent != [] ==> r.sent == [Report(f)]
    ensures r.crashed <==> r.sent != [] && !sendOk
    ensures r.next.lastError == (if r.sent != [] && sendOk then Report(f) else s.lastError)
    ensures !r.crashed ==> r.next.lastError == Report(f)
  {
    var report := Report(f);
    if report == s.lastError then StepResult(fromDate, [], s, false)
    else if sendOk then StepResult(fromDate, [report], s.(lastError := report), false)
    else StepResult(fromDate, [report], s, true)
  }

  /** One iteration of the polling loop. */
  function Step(s: LoopState, tick: Tick): (r: StepResult)
    ensures |r.sent| <= 1
    ensures r.fromDate == RequestCursor(s.cursor, tick.now)
    ensures r.crashed ==> !tick.sendOk && Examine(tick.fetch).Err?
  {
    var fromDate := RequestCursor(s.cursor, tick.now);
    match Examine(tick.fetch)
    case Err(f) => HandleFailure(s, fromDate, f, tick.sendOk)
    case Ok(StatusChanged(text, date)) =>
      var s' := s.(message := text);
      if tick.sendOk then StepResult(fromDate, [text], s'.(cursor := date), false)
      else StepResult(fromDate, [text], s', false)
    case Ok(NoHomeworks(date)) =>
      if s.noHomework == s.message then
        var s' := s.(noHomework := NoHomework);
        if tick.sendOk then StepResult(fromDate, [NoHomework], s'.(cursor := date), false)
        else StepResult(fromDate, [NoHomework], s', false)
      else StepResult(fromDate, [], s.(cursor := date), false)
  }

  /** The loop's variables right after startup: the clock as cursor, and the
      last message equal to the marker, so "ДЗ нет." may still be sent once. */
  function Initial(now: int): (s: LoopState)
    ensures s.cursor == JInt(now) && (Truthy(s.cursor) <==> now != 0)
    ensures s.message == s.noHomework == s.lastError == ""
  {
    LoopState(JInt(now), "", "", "")
  }

  /** Startup: stop when a credential is missing, otherwise enter the loop. */
  function Start(practicum: Option<string>, telegram: Option<string>, chat: Option<string>, now: int): (r: Startup)
    ensures r.Terminated? <==> !CheckTokens(practicum, telegram, chat)
    ensures r.Terminated? ==> r.reason == MissingTokens
    ensures r.Running? ==> r.state.cursor == JInt(now) && r.state.lastError == ""
    ensures r.Running? ==> r.state.message == "" && r.state.noHomework == ""
  {
    if !CheckTokens(practicum, telegram, chat) then Terminated(MissingTokens)
    else Running(Initial(now))
  }

  /** What a sequence of iterations requests and sends, and where it leaves
      the loop. */
  datatype RunResult = RunResult(requests: seq<Json>, sent: seq<string>, final: LoopState, crashed: bool)

  /** One iteration followed by the rest of the run; a crash discards the rest. */
  function Then(step: StepResult, rest: RunResult): (r: RunResult)
    ensures r.crashed ==> step.crashed || rest.crashed
    ensures step.crashed ==> r.requests == [step.fromDate] && r.sent == step.sent
                             && r.final == step.next && r.crashed
    ensures !step.crashed ==> r.requests == [step.fromDate] + rest.requests && r.sent == step.sent + rest.sent
                              && r.final == rest.final && r.crashed == rest.crashed
  {
    if step.crashed then RunResult([step.fromDate], step.sent, step.next, true)
    else RunResult([step.fromDate] + rest.requests, step.sent + rest.sent, rest.final, rest.crashed)
  }

  /** Runs the loop over the given ticks, stopping at a crash. */
  function Run(s: LoopState, ticks: seq<Tick>): (r: RunResult)
    ensures |r.requests| <= |ticks|
    ensures |r.sent| <= |r.requests|
    ensures r.crashed ==> r.requests != []
    ensures !r.crashed ==> |r.requests| == |ticks|
    ensures ticks != [] ==> r.requests[0] == RequestCursor(s.cursor, ticks[0].now)
    decreases |ticks|
  {
    if ticks == [] then RunResult([], [], s, false)
    else
      var step := Step(s, ticks[0]);
      Then(step, Run(step.next, ticks[1..]))
  }
}

=== FILE: bot_properties.dfy ===
/** Properties of the polling loop: what one iteration sends and keeps, error
    deduplication, the one-time "no homework" notice and example scenarios. */
module BotProperties {
  import opened Results
  import opened PyValue
  import opened Homework
  import opened HomeworkProperties
  import opened Bot

  /** A non-empty list: only the first record is translated and sent; the
      last status message is updated even when delivery fails, and the cursor
      moves to `current_date` only when it succeeds. */
  lemma StatusChangeIteration(s: LoopState, tick: Tick, homeworks: seq<Json>)
    requires tick.fetch.Answered? && CheckResponse(tick.fetch.body) == Ok(homeworks)
    requires |homeworks| > 0 && ParseStatus(homeworks[0]).Ok?
    ensures var r := Step(s, tick);
      && r.sent == [ParseStatus(homeworks[0]).value]
      && r.next.message == ParseStatus(homeworks[0]).value
      && r.next.noHomework == s.noHomework
      && r.next.lastError == s.lastError
      && !r.crashed
      && r.next.cursor == (if tick.sendOk then Get(tick.fetch.body, "current_date") else s.cursor)
  {
  }

  /** An empty list: "ДЗ нет." is attempted only when the marker equals the
      last status message, and the marker then becomes "ДЗ нет.". */
  lemma EmptyListIteration(s: LoopState, tick: Tick)
    requires tick.fetch.Answered? && CheckResponse(tick.fetch.body) == Ok([])
    ensures var r := Step(s, tick);
      && r.sent == (if s.noHomework == s.message then [NoHomework] else [])
      && r.next.noHomework == (if s.noHomework == s.message then NoHomework else s.noHomework)
      && r.next.message == s.message
      && r.next.lastError == s.lastError
      && !r.crashed
      && r.next.cursor == (if r.sent == [] || tick.sendOk
                           then Get(tick.fetch.body, "current_date") else s.cursor)
  {
  }

  /** A failed iteration keeps the cursor and the status bookkeeping, reports
      the failure only when it differs from the last report, records it only
      when delivered, and dies when that report cannot be delivered. */
  lemma FailedIteration(s: LoopState, tick: Tick, f: Failure)
    requires Examine(tick.fetch) == Err(f)
    ensures var r := Step(s, tick);
      && r.next.cursor == s.cursor
      && r.next.message == s.message
      && r.next.noHomework == s.noHomework
      && r.sent == (if Report(f) == s.lastError then [] else [Report(f)])
      && (r.crashed <==> Report(f) != s.lastError && !tick.sendOk)
      && r.next.lastError == (if Report(f) != s.lastError && tick.sendOk then Report(f) else s.lastError)
  {
  }

  /** The dedup record is only ever written with a delivered error report:
      no successful iteration clears or changes it. */
  lemma LastErrorOnlyFromReports(s: LoopState, tick: Tick)
    ensures var r := Step(s, tick);
      r.next.lastError == s.lastError
      || (Examine(tick.fetch).Err? && r.next.lastError == Report(Examine(tick.fetch).error)
          && r.sent == [r.next.lastError] && tick.sendOk)
  {
  }

  /** The cursor changes only to the `current_date` of a validated response. */
  lemma CursorOnlyFromValidResponse(s: LoopState, tick: Tick)
    ensures var r := Step(s, tick);
      r.next.cursor == s.cursor
      || (tick.fetch.Answered? && CheckResponse(tick.fetch.body).Ok?
          && r.next.cursor == Get(tick.fetch.body, "current_date"))
  {
  }

  /** The request's `from_date` is never falsy unless the clock reads 0, and
      falling back to the clock is idempotent. */
  lemma RequestCursorFallback(cursor: Json, now: int)
    ensures now != 0 ==> Truthy(RequestCursor(cursor, now))
    ensures RequestCursor(RequestCursor(cursor, now), now) == RequestCursor(cursor, now)
    ensures cursor == JInt(0) || cursor == JNull ==> RequestCursor(cursor, now) == JInt(now)
  {
  }

  /** Two consecutive iterations failing with the same report notify at most
      once between them. */
  lemma RepeatedFailureSuppressed(s: LoopState, t1: Tick, t2: Tick, f1: Failure, f2: Failure)
    requires Examine(t1.fetch) == Err(f1) && Examine(t2.fetch) == Err(f2)
    requires Report(f1) == Report(f2)
    requires !Step(s, t1).crashed
    ensures Step(Step(s, t1).next, t2).sent == []
    ensures |Step(s, t1).sent + Step(Step(s, t1).next, t2).sent| <= 1
  {
  }

  /** Every tick of the run fails with a report reading `text`. */
  predicate AllFailWith(ticks: seq<Tick>, text: string) {
    forall k :: 0 <= k < |ticks| ==>
      Examine(ticks[k].fetch).Err? && Report(Examine(ticks[k].fetch).error) == text
  }

  /** However long a failure persists, it is reported at most once (never if
      it is already the recorded error), and every retry requests the same
      cursor. */
  lemma {:induction false} PersistentFailureReportedOnce(s: LoopState, ticks: seq<Tick>, text: string)
    requires AllFailWith(ticks, text)
    ensures |Run(s, ticks).sent| <= (if s.lastError == text then 0 else 1)
    ensures Run(s, ticks).final.cursor == s.cursor
    ensures Truthy(s.cursor) ==> forall k :: 0 <= k < |Run(s, ticks).requests| ==> Run(s, ticks).requests[k] == s.cursor
    decreases |ticks|
  {
    if ticks != [] {
      var step := Step(s, ticks[0]);
      FailedIteration(s, ticks[0], Examine(ticks[0].fetch).error);
      if !step.crashed {
        assert AllFailWith(ticks[1..], text) by {
          forall k | 0 <= k < |ticks[1..]|
            ensures ticks[1..][k] == ticks[k + 1]
          {
          }
        }
        PersistentFailureReportedOnce(step.next, ticks[1..], text);
        assert step.sent != [] ==> step.next.lastError == text;
        var rest := Run(step.next, ticks[1..]);
        assert Run(s, ticks).requests == [step.fromDate] + rest.requests;
      }
    }
  }

  /** The invariant of the loop's status bookkeeping: the marker is empty or
      "ДЗ нет.", and the last status message is empty or a status change. */
  predicate Consistent(s: LoopState) {
    && (s.noHomework == "" || s.noHomework == NoHomework)
    && (s.message == "" || IsStatusChange(s.message))
  }

  /** How many more times the state allows "ДЗ нет." to be sent. */
  function NoHomeworkBudget(s: LoopState): nat {
    if s.noHomework == s.message then 1 else 0
  }

  /** One iteration keeps the invariant and never sends more "ДЗ нет." than the
      budget it consumes. */
  lemma StepKeepsConsistent(s: LoopState, tick: Tick)
    requires Consistent(s)
    ensures Consistent(Step(s, tick).next)
    ensures multiset(Step(s, tick).sent)[NoHomework] + NoHomeworkBudget(Step(s, tick).next)
            <= NoHomeworkBudget(s)
  {
    var r := Step(s, tick);
    TextKindsDisjoint(s.message);
    match Examine(tick.fetch)
    case Err(f) =>
      TextKindsDisjoint(Report(f));
    case Ok(StatusChanged(text, date)) =>
      var homeworks := CheckResponse(tick.fetch.body).value;
      ParsedIsStatusChange(homeworks[0]);
      TextKindsDisjoint(text);
    case Ok(NoHomeworks(date)) =>
  }

  /** "ДЗ нет." is sent at most as often as the budget of the starting state. */
  lemma {:induction false} NoHomeworkWithinBudget(s: LoopState, ticks: seq<Tick>)
    requires Consistent(s)
    ensures multiset(Run(s, ticks).sent)[NoHomework] <= NoHomeworkBudget(s)
    decreases |ticks|
  {
    if ticks != [] {
      var step := Step(s, ticks[0]);
      StepKeepsConsistent(s, ticks[0]);
      if !step.crashed {
        NoHomeworkWithinBudget(step.next, ticks[1..]);
        var rest := Run(step.next, ticks[1..]);
        assert multiset(step.sent + rest.sent) == multiset(step.sent) + multiset(rest.sent);
      }
    }
  }

  /** From startup on, "ДЗ нет." is attempted at most once in the whole run. */
  lemma NoHomeworkAtMostOnce(now: int, ticks: seq<Tick>)
    ensures multiset(Run(Initial(now), ticks).sent)[NoHomework] <= 1
  {
    NoHomeworkWithinBudget(Initial(now), ticks);
  }

  /** Startup with every credential empty stops before any request. */
  lemma EmptyCredentialsTerminate(now: int)
    ensures Start(Some(""), Some(""), Some(""), now) == Terminated(MissingTokens)
    ensures Start(None, Some("bot"), Some("chat"), now) == Terminated(MissingTokens)
  {
  }

  /** An example: an approved `hw1` is announced and the cursor moves to the
      response's `current_date`. */
  lemma ApprovedScenario(now: int)
    ensures var body := JObject([
              ("homeworks", JList([JObject([("homework_name", JStr("hw1")), ("status", JStr("approved"))])])),
              ("current_date", JInt(1700000000))]);
      var r := Step(Initial(now), Tick(now, Answered(body), true));
      && r.sent == [ChangedPrefix + "hw1" + "\". " + ApprovedVerdict]
      && r.next.cursor == JInt(1700000000)
      && !r.crashed
  {
    var record := JObject([("homework_name", JStr("hw1")), ("status", JStr("approved"))]);
    var body := JObject([("homeworks", JList([record])), ("current_date", JInt(1700000000))]);
    ApprovedExample();
    assert CheckResponse(body) == Ok([record]);
    assert Examine(Answered(body)) == Ok(StatusChanged(ChangedPrefix + "hw1" + "\". " + ApprovedVerdict, JInt(1700000000)));
  }

  /** An unavailable endpoint twice in a row: one report, the same request
      cursor both times, and the cursor kept. */
  lemma UnavailableTwiceScenario(now: int, later: int)
    requires now != 0
    ensures var r := Run(Initial(now), [Tick(now, Unreachable, true), Tick(later, Unreachable, true)]);
      && r.sent == [Report(RequestFailed)]
      && r.requests == [JInt(now), JInt(now)]
      && r.final.cursor == JInt(now)
      && !r.crashed
  {
    var ticks := [Tick(now, Unreachable, true), Tick(later, Unreachable, true)];
    var first := Step(Initial(now), ticks[0]);
    assert first.next.cursor == JInt(now);
    assert Run(first.next, ticks[1..]).final.cursor == JInt(now);
  }

  /** A response that is a JSON array fails the iteration with the
      validator's TypeError; it is reported unless already recorded, and the
      cursor stays. */
  lemma ArrayResponseIteration(s: LoopState, tick: Tick, items: seq<Json>)
    requires tick.fetch == Answered(JList(items))
    ensures var r := Step(s, tick);
      && r.sent == (if Report(ResponseNotMapping) == s.lastError then [] else [Report(ResponseNotMapping)])
      && r.next.cursor == s.cursor
      && r.next.message == s.message
  {
    assert Examine(tick.fetch) == Err(ResponseNotMapping);
    FailedIteration(s, tick, ResponseNotMapping);
  }

  /** A first record with an unknown status fails the iteration: no status
      notification is sent, only the KeyError report naming the status (unless
      already recorded), and neither the last message nor the cursor moves. */
  lemma UnknownStatusIteration(s: LoopState, tick: Tick, homeworks: seq<Json>, status: string)
    requires tick.fetch.Answered? && CheckResponse(tick.fetch.body) == Ok(homeworks)
    requires |homeworks| > 0 && homeworks[0].JObject?
    requires Get(homeworks[0], "status") == JStr(status) && status !in Verdicts
    ensures var r := Step(s, tick);
      && r.sent == (if Report(StatusUnknown(JStr(status))) == s.lastError then []
                    else [Report(StatusUnknown(JStr(status)))])
      && (forall k :: 0 <= k < |r.sent| ==> !IsStatusChange(r.sent[k]))
      && r.next.message == s.message
      && r.next.cursor == s.cursor
  {
    var f := StatusUnknown(JStr(status));
    UnknownStatusExamined(tick.fetch, homeworks, status);
    FailedIteration(s, tick, f);
    TextKindsDisjoint(Report(f));
  }

  lemma UnknownStatusExamined(fetch: FetchOutcome, homeworks: seq<Json>, status: string)
    requires fetch.Answered? && CheckResponse(fetch.body) == Ok(homeworks)
    requires |homeworks| > 0 && homeworks[0].JObject?
    requires Get(homeworks[0], "status") == JStr(status) && status !in Verdicts
    ensures Examine(fetch) == Err(StatusUnknown(JStr(status)))
  {
    assert ParseStatus(homeworks[0]) == Err(StatusUnknown(JStr(status)));
  }

  /** The loop driven by an arbitrary step function; `Run` is this loop
      driven by `Step`. */
  function Loop(f: (LoopState, Tick) -> StepResult, s: LoopState, ticks: seq<Tick>): (r: RunResult)
    ensures r.crashed ==> ticks != []
    decreases |ticks|
  {
    if ticks == [] then RunResult([], [], s, false)
    else
      var step := f(s, ticks[0]);
      Then(step, Loop(f, step.next, ticks[1..]))
  }

  lemma {:induction false} RunIsLoop(s: LoopState, ticks: seq<Tick>)
    ensures Run(s, ticks) == Loop(Step, s, ticks)
    decreases |ticks|
  {
    if ticks != [] {
      RunIsLoop(Step(s, ticks[0]).next, ticks[1..]);
    }
  }

  /** Whatever the step function, a crash ends the loop. */
  lemma {:induction false} LoopStopsAtCrash(f: (LoopState, Tick) -> StepResult, s: LoopState, ticks: seq<Tick>, later: seq<Tick>)
    requires Loop(f, s, ticks).crashed
    ensures Loop(f, s, ticks + later) == Loop(f, s, ticks)
    decreases |ticks|
  {
    var all := ticks + later;
    assert all[0] == ticks[0] && all[1..] == ticks[1..] + later;
    var step := f(s, ticks[0]);
    if !step.crashed {
      LoopStopsAtCrash(f, step.next, ticks[1..], later);
    }
  }

  /** Once the loop dies, later ticks change nothing: the run is exactly the
      run up to the crash. */
  lemma CrashEndsRun(s: LoopState, ticks: seq<Tick>, later: seq<Tick>)
    requires Run(s, ticks).crashed
    ensures Run(s, ticks + later) == Run(s, ticks)
  {
    RunIsLoop(s, ticks);
    RunIsLoop(s, ticks + later);
    LoopStopsAtCrash(Step, s, ticks, later);
  }
}

=== FILE: homework.dfy ===
/** The pure decision pieces of the homework-status bot: the response
    validator, the status translator, the credential check and the exact
    texts of every exception the polling loop can catch. */
module Homework {
  import opened Results
  import opened PyValue
  import opened PyText

  const ApprovedVerdict := "Работа проверена: ревьюеру всё понравилось. Ура!"
  const ReviewingVerdict := "Работа взята на проверку ревьюером."
  const RejectedVerdict := "Работа проверена: у ревьюера есть замечания."

  /** The verdict table: review status code to the text sent to the chat. */
  const Verdicts: map<string, string> := map[
    "approved" := ApprovedVerdict,
    "reviewing" := ReviewingVerdict,
    "rejected" := RejectedVerdict
  ]

  /** Opening of every status-change notification, up to the homework name. */
  const ChangedPrefix := "Изменился статус проверки работы \""
  /** Opening of every error report the loop sends. */
  const ReportPrefix := "Сбой в работе программы: "
  /** The notification for an empty homework list. */
  const NoHomework := "ДЗ нет."
  /** The fatal message when a credential is missing at startup. */
  const MissingTokens := "Отсутствует токен.Конец работы!"

  /** The Python exception classes the core raises. */
  datatype ExceptionClass = PlainException | DecodeError | TypeError | KeyError | AttributeError

  /** Every exception the body of one poll iteration can raise, other than a
      failed delivery. */
  datatype Failure =
    | RequestFailed                     // any transport error or non-200 status
    | BodyNotJson(reason: string)       // the body did not decode; its decoder's text
    | ResponseNotMapping
    | HomeworksNotList
    | CurrentDateMissing
    | HomeworkNotMapping(homework: Json)
    | StatusMissing
    | StatusUnhashable(status: Json)
    | StatusUnknown(status: Json)

  /** Which exception class each failure is raised as: the validator's
      shape checks and an unhashable status are TypeErrors, a missing key or
      an unknown status a KeyError. */
  function ClassOf(f: Failure): (c: ExceptionClass)
    ensures c == KeyError <==> f.CurrentDateMissing? || f.StatusMissing? || f.StatusUnknown?
    ensures c == TypeError <==> f.ResponseNotMapping? || f.HomeworksNotList? || f.StatusUnhashable?
    ensures c == AttributeError <==> f.HomeworkNotMapping?
  {
    match f
    case RequestFailed => PlainException
    case BodyNotJson(_) => DecodeError
    case ResponseNotMapping => TypeError
    case HomeworksNotList => TypeError
    case CurrentDateMissing => KeyError
    case HomeworkNotMapping(_) => AttributeError
    case StatusMissing => KeyError
    case StatusUnhashable(_) => TypeError
    case StatusUnknown(_) => KeyError
  }

  const UnknownHead := "Статус "
  const UnknownTail := " не существует."

  /** The argument the failure's exception is constructed with. An unknown
      status is named in it, and so is the type of an unhashable status or of
      a record that is not a mapping. */
  function Argument(f: Failure): (r: string)
    ensures f.StatusUnknown? ==>
      |UnknownHead| + |UnknownTail| <= |r|
      && r[|UnknownHead|..|r| - |UnknownTail|] == Str(f.status)
    ensures f.StatusUnhashable? ==>
      |TypeName(f.status)| + 1 <= |r| && r[|r| - |TypeName(f.status)| - 1..|r| - 1] == TypeName(f.status)
    ensures f.HomeworkNotMapping? ==>
      1 + |TypeName(f.homework)| <= |r| && r[1..1 + |TypeName(f.homework)|] == TypeName(f.homework)
    ensures !f.BodyNotJson? ==> r != ""
  {
    match f
    case RequestFailed => "Запрос к API не выполнен."
    case BodyNotJson(reason) => reason
    case ResponseNotMapping => "Значение response должно быть словарем."
    case HomeworksNotList => "Значение homeworks должно быть списком."
    case CurrentDateMissing => "Не хватает ключа current_date."
    case HomeworkNotMapping(h) =>
      var r := "'" + TypeName(h) + "' object has no attribute 'get'";
      assert r[1..1 + |TypeName(h)|] == TypeName(h);
      r
    case StatusMissing => "Не обнаружен ключ status."
    case StatusUnhashable(s) =>
      var r := "unhashable type: '" + TypeName(s) + "'";
      assert r[|r| - |TypeName(s)| - 1..|r| - 1] == TypeName(s);
      r
    case StatusUnknown(s) =>
      var r := UnknownHead + Str(s) + UnknownTail;
      assert r[|UnknownHead|..|r| - |UnknownTail|] == Str(s);
      r
  }

  /** `str(exception)`: a KeyError renders the repr of its argument, every
      other class renders the argument itself. */
  function Describe(f: Failure): (r: string)
    ensures ClassOf(f) == KeyError ==> |r| >= 2 && r[0] == r[|r| - 1] == QuoteFor(Argument(f))
    ensures ClassOf(f) == KeyError ==> Unescape(r[1..|r| - 1]) == Argument(f)
    ensures ClassOf(f) == KeyError && Plain(Argument(f)) ==> r == "'" + Argument(f) + "'"
    ensures ClassOf(f) != KeyError ==> r == Argument(f)
  {
    if ClassOf(f) == KeyError then ReprString(Argument(f)) else Argument(f)
  }

  /** The error report the loop sends for a failure. */
  function Report(f: Failure): (r: string)
    ensures IsReport(r)
    ensures r[|ReportPrefix|..] == Describe(f)
    ensures !IsStatusChange(r) && r != NoHomework
  {
    var r := ReportPrefix + Describe(f);
    assert r[0] == ReportPrefix[0] != ChangedPrefix[0];
    r
  }

  predicate IsReport(m: string) {
    |ReportPrefix| <= |m| && m[..|ReportPrefix|] == ReportPrefix
  }

  predicate IsStatusChange(m: string) {
    |ChangedPrefix| <= |m| && m[..|ChangedPrefix|] == ChangedPrefix
  }

  /** `check_response`: a mapping with a `homeworks` list and a `current_date`
      key yields that list; otherwise the first failed check is reported. */
  function CheckResponse(response: Json): (r: Result<seq<Json>, Failure>)
    ensures r == Err(ResponseNotMapping) <==> !response.JObject?
    ensures r == Err(HomeworksNotList) <==>
      response.JObject? && !Get(response, "homeworks").JList?
    ensures r == Err(CurrentDateMissing) <==>
      response.JObject? && Get(response, "homeworks").JList? && !HasKey(response, "current_date")
    ensures r.Ok? <==>
      response.JObject? && Get(response, "homeworks").JList? && HasKey(response, "current_date")
    ensures r.Ok? ==> Get(response, "homeworks") == JList(r.value)
  {
    if !response.JObject? then Err(ResponseNotMapping)
    else
      var homeworks := Get(response, "homeworks");
      if !homeworks.JList? then Err(HomeworksNotList)
      else if !HasKey(response, "current_date") then Err(CurrentDateMissing)
      else Ok(homeworks.items)
  }

  /** `HOMEWORK_STATUSES.get(status)` for a hashable status. */
  function Verdict(status: Json): (r: Option<string>)
    ensures r.Some? <==> status.JStr? && status.s in Verdicts
    ensures r.Some? ==> r.value == Verdicts[status.s]
    ensures r.Some? ==> r.value != ""
    ensures r.Some? ==> forall t :: t in Verdicts && Verdicts[t] == r.value ==> t == status.s
  {
    if status.JStr? && status.s in Verdicts then Some(Verdicts[status.s]) else None
  }

  /** `parse_status`: the notification text for one homework record. */
  function ParseStatus(homework: Json): (r: Result<string, Failure>)
    ensures !homework.JObject? ==> r == Err(HomeworkNotMapping(homework))
    ensures homework.JObject? && !HasKey(homework, "status") ==> r == Err(StatusMissing)
    ensures homework.JObject? && HasKey(homework, "status") && !Hashable(Get(homework, "status"))
            ==> r == Err(StatusUnhashable(Get(homework, "status")))
    ensures homework.JObject? && HasKey(homework, "status") && Hashable(Get(homework, "status"))
            && !(Get(homework, "status").JStr? && Get(homework, "status").s in Verdicts)
            ==> r == Err(StatusUnknown(Get(homework, "status")))
    ensures r.Ok? <==>
      homework.JObject? && HasKey(homework, "status")
      && Get(homework, "status").JStr? && Get(homework, "status").s in Verdicts
    ensures r.Ok? ==>
      r.value == ChangedPrefix + Str(Get(homework, "homework_name")) + "\". "
                 + Verdicts[Get(homework, "status").s]
    ensures r.Err? ==> r.error.HomeworkNotMapping? || r.error.StatusMissing?
                       || r.error.StatusUnhashable? || r.error.StatusUnknown?
  {
    if !homework.JObject? then Err(HomeworkNotMapping(homework))
    else
      var name := Get(homework, "homework_name");
      match Lookup(homework.fields, "status")
      case None => Err(StatusMissing)
      case Some(status) =>
        if !Hashable(status) then Err(StatusUnhashable(status))
        else
          match Verdict(status)
          case None => Err(StatusUnknown(status))
          case Some(verdict) => Ok(ChangedPrefix + Str(name) + "\". " + verdict)
  }

  /** Recovers the status code from a status-change notification by the
      verdict it ends with. */
  function StatusOfMessage(m: string): Option<string> {
    if EndsWith(m, ApprovedVerdict) then Some("approved")
    else if EndsWith(m, ReviewingVerdict) then Some("reviewing")
    else if EndsWith(m, RejectedVerdict) then Some("rejected")
    else None
  }

  predicate EndsWith(m: string, suffix: string) {
    |suffix| <= |m| && m[|m| - |suffix|..] == suffix
  }

  /** A token is present when the environment holds a non-empty value for it. */
  predicate Present(token: Option<string>) {
    token.Some? && token.value != ""
  }

  /** `check_tokens`: all three credentials are truthy. */
  function CheckTokens(practicum: Option<string>, telegram: Option<string>, chat: Option<string>): (ok: bool)
    ensures ok <==> forall t :: t in [practicum, telegram, chat] ==> t.Some? && t.value != ""
  {
    Present(practicum) && Present(telegram) && Present(chat)
  }
}

=== FILE: homework_properties.dfy ===
/** Properties of the validator, the translator and the report texts. */
module HomeworkProperties {
  import opened Results
  import opened PyValue
  import opened PyText
  import opened Homework

  /** The status code can be read back from the notification's verdict. */
  lemma StatusRoundTrip(homework: Json)
    requires ParseStatus(homework).Ok?
    ensures StatusOfMessage(ParseStatus(homework).value) == Some(Get(homework, "status").s)
  {
    var m := ParseStatus(homework).value;
    var status := Get(homework, "status").s;
    var head := ChangedPrefix + Str(Get(homework, "homework_name")) + "\". ";
    assert m == head + Verdicts[status];
    var n := |m|;
    if status == "approved" {
      assert m[n - |ApprovedVerdict|..] == ApprovedVerdict;
    } else if status == "reviewing" {
      assert m[n - |ReviewingVerdict|..] == ReviewingVerdict;
      assert !EndsWith(m, ApprovedVerdict) by {
        assert m[n - 1] == ReviewingVerdict[|ReviewingVerdict| - 1];
        assert ApprovedVerdict[|ApprovedVerdict| - 1] == '!';
      }
    } else {
      assert status == "rejected";
      assert m[n - |RejectedVerdict|..] == RejectedVerdict;
      assert !EndsWith(m, ApprovedVerdict) by {
        assert m[n - 1] == RejectedVerdict[|RejectedVerdict| - 1];
        assert ApprovedVerdict[|ApprovedVerdict| - 1] == '!';
      }
      assert !EndsWith(m, ReviewingVerdict) by {
        assert m[n - 2] == RejectedVerdict[|RejectedVerdict| - 2];
        assert ReviewingVerdict[|ReviewingVerdict| - 2] == 'м';
      }
    }
  }

  /** Two records with different statuses are announced by different
      notifications, whatever their names. */
  lemma DistinctStatusesDistinctMessages(a: Json, b: Json)
    requires ParseStatus(a).Ok? && ParseStatus(b).Ok?
    requires Get(a, "status") != Get(b, "status")
    ensures ParseStatus(a).value != ParseStatus(b).value
  {
    StatusRoundTrip(a);
    StatusRoundTrip(b);
  }

  /** Status notifications, error reports and the empty-list notice never
      coincide. */
  lemma TextKindsDisjoint(m: string)
    ensures IsStatusChange(m) ==> m != NoHomework && !IsReport(m)
    ensures IsReport(m) ==> m != NoHomework
  {
    if IsStatusChange(m) {
      assert m[0] == ChangedPrefix[0];
    }
    if IsReport(m) {
      assert m[0] == ReportPrefix[0];
    }
  }

  /** Every successful translation is a status notification. */
  lemma ParsedIsStatusChange(homework: Json)
    requires ParseStatus(homework).Ok?
    ensures IsStatusChange(ParseStatus(homework).value)
    ensures ParseStatus(homework).value != NoHomework
  {
  }

  /** The validator looks at nothing but the kind of the value, its
      `homeworks` entry and the presence of `current_date`. */
  lemma CheckResponseReadsTwoFields(a: Json, b: Json)
    requires a.JObject? == b.JObject?
    requires a.JObject? ==> Get(a, "homeworks") == Get(b, "homeworks")
                            && HasKey(a, "current_date") == HasKey(b, "current_date")
    ensures CheckResponse(a) == CheckResponse(b)
  {
  }

  /** A record whose status is not in the table produces no notification but
      a KeyError naming the status. */
  lemma UnknownStatusFails(homework: Json, status: string)
    requires homework.JObject? && Get(homework, "status") == JStr(status)
    requires status !in Verdicts
    ensures ParseStatus(homework) == Err(StatusUnknown(JStr(status)))
    ensures ClassOf(StatusUnknown(JStr(status))) == KeyError
    ensures Report(StatusUnknown(JStr(status)))
            == ReportPrefix + ReprString(UnknownHead + status + UnknownTail)
  {
    var f := StatusUnknown(JStr(status));
    assert HasKey(homework, "status");
    assert Argument(f) == UnknownHead + status + UnknownTail;
    assert Describe(f) == ReprString(Argument(f));
  }

  /** An example: an approved `hw1` is announced with the approval verdict. */
  lemma ApprovedExample()
    ensures ParseStatus(JObject([("homework_name", JStr("hw1")), ("status", JStr("approved"))]))
            == Ok(ChangedPrefix + "hw1" + "\". " + ApprovedVerdict)
  {
  }

  /** A record without a name is announced with the name rendered as `None`. */
  lemma NamelessExample()
    ensures ParseStatus(JObject([("status", JStr("rejected"))]))
            == Ok(ChangedPrefix + "None" + "\". " + RejectedVerdict)
  {
  }

  /** A JSON array instead of an object is rejected as a TypeError with the
      validator's own wording. */
  lemma ArrayResponseExample(items: seq<Json>)
    ensures CheckResponse(JList(items)) == Err(ResponseNotMapping)
    ensures Report(ResponseNotMapping)
            == ReportPrefix + "Значение response должно быть словарем."
  {
  }

  /** A response without `current_date` is rejected as a KeyError. */
  lemma MissingDateExample()
    ensures CheckResponse(JObject([("homeworks", JList([]))])) == Err(CurrentDateMissing)
    ensures ClassOf(CurrentDateMissing) == KeyError
  {
  }

  /** Two failures produce the same report exactly when their exception
      texts agree, so deduplication compares exception texts. */
  lemma ReportsCompareByDescription(f: Failure, g: Failure)
    ensures Report(f) == Report(g) <==> Describe(f) == Describe(g)
  {
    if Report(f) == Report(g) {
      assert Report(f)[|ReportPrefix|..] == Report(g)[|ReportPrefix|..];
    }
  }

  /** A KeyError's report gives its argument back, so two KeyErrors share a
      report only when they share an argument. */
  lemma KeyErrorReportsKeepArguments(f: Failure, g: Failure)
    requires ClassOf(f) == KeyError && ClassOf(g) == KeyError
    ensures Report(f) == Report(g) ==> Argument(f) == Argument(g)
  {
    ReportsCompareByDescription(f, g);
  }

  /** The two missing-key KeyErrors are reported with different texts, so
      deduplication keeps them apart. */
  lemma MissingKeyReportsDiffer(f: Failure, g: Failure)
    requires f == CurrentDateMissing && g == StatusMissing
    ensures Report(f) != Report(g)
  {
    KeyErrorReportsKeepArguments(f, g);
    assert |Argument(f)| != |Argument(g)|;
  }

  /** Two different unknown status strings are reported with different
      texts, whatever quotes or backslashes they hold. */
  lemma UnknownStatusReportsDiffer(a: string, b: string)
    requires a != b
    ensures Report(StatusUnknown(JStr(a))) != Report(StatusUnknown(JStr(b)))
  {
    var f, g := StatusUnknown(JStr(a)), StatusUnknown(JStr(b));
    KeyErrorReportsKeepArguments(f, g);
  }

  /** Every exception other than a KeyError renders its argument as is, so
      two such failures share a report exactly when they share an argument. */
  lemma OtherReportsKeepArguments(f: Failure, g: Failure)
    requires ClassOf(f) != KeyError && ClassOf(g) != KeyError
    ensures Report(f) == Report(g) <==> Argument(f) == Argument(g)
  {
    ReportsCompareByDescription(f, g);
  }

  /** The three fixed texts of the request failure and of the validator's two
      TypeErrors differ pairwise. */
  lemma FixedArgumentsDistinct(a: Failure, b: Failure, c: Failure)
    requires a == RequestFailed && b == ResponseNotMapping && c == HomeworksNotList
    ensures Argument(a) != Argument(b) && Argument(a) != Argument(c) && Argument(b) != Argument(c)
  {
    assert Argument(a)[1] != Argument(b)[1];
    assert Argument(a)[1] != Argument(c)[1];
    assert Argument(b)[9] != Argument(c)[9];
  }

  /** An unreachable endpoint, a response that is not a mapping and a
      `homeworks` that is not a list are reported with three different texts,
      so deduplication keeps them apart. */
  lemma FixedReportsDistinct(a: Failure, b: Failure, c: Failure)
    requires a == RequestFailed && b == ResponseNotMapping && c == HomeworksNotList
    ensures Report(a) != Report(b) && Report(a) != Report(c) && Report(b) != Report(c)
  {
    FixedArgumentsDistinct(a, b, c);
    OtherReportsKeepArguments(a, b);
    OtherReportsKeepArguments(a, c);
    OtherReportsKeepArguments(b, c);
  }

  /** An unhashable status is reported with its type's name, so a list status
      and a dict status give different reports. */
  lemma UnhashableReportsDiffer(a: Json, b: Json)
    requires a.JList? && b.JObject?
    ensures Report(StatusUnhashable(a)) != Report(StatusUnhashable(b))
  {
    var f, g := StatusUnhashable(a), StatusUnhashable(b);
    OtherReportsKeepArguments(f, g);
  }
}

=== FILE: pytext.dfy ===
/** Python's `str()` and `repr()` of decoded JSON values, which decide the exact
    wording of the bot's notifications and error reports. */
module PyText {
  import opened PyValue

  const Digits := "0123456789"
  const HexDigits := "0123456789abcdef"

  /** `str(n)` for a natural number: its decimal digits, most significant first. */
  function NatToString(n: nat): (s: string)
    ensures |s| >= 1
    ensures forall k :: 0 <= k < |s| ==> s[k] in Digits
    ensures n > 0 ==> s[0] != '0'
    decreases n
  {
    if n < 10 then [Digits[n]]
    else NatToString(n / 10) + [Digits[n % 10]]
  }

  /** The numeric value of a string of decimal digits; the inverse of `NatToString`. */
  function DecimalValue(s: string): nat
    decreases |s|
  {
    if s == [] then 0
    else DecimalValue(s[..|s| - 1]) * 10 + DigitValue(s[|s| - 1])
  }

  function DigitValue(c: char): nat {
    if '0' <= c <= '9' then (c as int) - ('0' as int) else 0
  }

  /** Decimal rendering reads back as the number it renders. */
  lemma {:induction false} DecimalRoundTrip(n: nat)
    ensures DecimalValue(NatToString(n)) == n
    decreases n
  {
    if n >= 10 {
      var s := NatToString(n);
      assert s[..|s| - 1] == NatToString(n / 10);
      DecimalRoundTrip(n / 10);
    }
  }

  /** `str(i)` for a Python int: an optional minus sign, then the digits of
      the magnitude. */
  function IntToString(i: int): (s: string)
    ensures |s| >= 1
    ensures (s[0] == '-') <==> i < 0
    ensures i < 0 ==> |s| >= 2
    ensures forall k :: (if i < 0 then 1 else 0) <= k < |s| ==> s[k] in Digits
    ensures (if i < 0 then s[1..] else s)[0] == '0' ==> i == 0
    ensures DecimalValue(if i < 0 then s[1..] else s) == (if i < 0 then -i else i)
  {
    if i < 0 then
      DecimalRoundTrip(-i);
      var s := "-" + NatToString(-i);
      assert s[1..] == NatToString(-i);
      s
    else
      DecimalRoundTrip(i);
      NatToString(i)
  }

  /** The quote `repr` puts around a string: double quotes only when the text
      holds a single quote and no double quote. */
  function QuoteFor(s: string): (q: char)
    ensures q == '\'' || q == '"'
  {
    if '\'' in s && '"' !in s then '"' else '\''
  }

  /** How `repr` writes one character inside a string delimited by `quote`. */
  function EscapeChar(c: char, quote: char): (r: string)
    requires quote == '\'' || quote == '"'
    ensures |r| >= 1
    ensures r == [c] || (r[0] == '\\' && 2 <= |r| <= 4)
    ensures r == [c] <==> (c != quote && c != '\\' && ' ' <= c && c != '\U{7F}')
  {
    if c == quote || c == '\\' then ['\\', c]
    else if c == '\t' then "\\t"
    else if c == '\n' then "\\n"
    else if c == '\r' then "\\r"
    else if c < ' ' || c == '\U{7F}' then
      ['\\', 'x', HexDigits[(c as int) / 16], HexDigits[(c as int) % 16]]
    else [c]
  }

  function EscapeAll(s: string, quote: char): string
    requires quote == '\'' || quote == '"'
    decreases |s|
  {
    if s == [] then "" else EscapeChar(s[0], quote) + EscapeAll(s[1..], quote)
  }

  /** The value of a lower-case hexadecimal digit. */
  function HexValue(d: char): nat {
    if '0' <= d <= '9' then (d as int) - ('0' as int)
    else if 'a' <= d <= 'f' then (d as int) - ('a' as int) + 10
    else 0
  }

  lemma HexDigitRoundTrip(n: nat)
    requires n < 16
    ensures HexValue(HexDigits[n]) == n
  {
  }

  /** Reads back the text between the quotes of a string's `repr`: the
      inverse of `EscapeAll`. */
  function Unescape(t: string): string
    decreases |t|
  {
    if t == [] then ""
    else if t[0] == '\\' && |t| >= 2 then
      if t[1] == 't' then "\t" + Unescape(t[2..])
      else if t[1] == 'n' then "\n" + Unescape(t[2..])
      else if t[1] == 'r' then "\r" + Unescape(t[2..])
      else if t[1] == 'x' && |t| >= 4 then
        [(HexValue(t[2]) * 16 + HexValue(t[3])) as char] + Unescape(t[4..])
      else [t[1]] + Unescape(t[2..])
    else [t[0]] + Unescape(t[1..])
  }

  /** One escaped character reads back as itself, whatever follows it. */
  lemma UnescapeChar(c: char, quote: char, rest: string)
    requires quote == '\'' || quote == '"'
    ensures Unescape(EscapeChar(c, quote) + rest) == [c] + Unescape(rest)
  {
    var t := EscapeChar(c, quote) + rest;
    if c == quote || c == '\\' {
      assert t[0] == '\\' && t[1] == c && t[2..] == rest;
    } else if c == '\t' || c == '\n' || c == '\r' {
      assert t[0] == '\\' && t[2..] == rest;
    } else if c < ' ' || c == '\U{7F}' {
      var n := c as int;
      assert t[0] == '\\' && t[1] == 'x' && t[4..] == rest;
      assert t[2] == HexDigits[n / 16] && t[3] == HexDigits[n % 16];
      HexDigitRoundTrip(n / 16);
      HexDigitRoundTrip(n % 16);
    } else {
      assert t[0] == c && t[1..] == rest;
    }
  }

  /** `repr`'s escaping loses nothing: unescaping gives the text back. */
  lemma {:induction false} UnescapeEscapeAll(s: string, quote: char)
    requires quote == '\'' || quote == '"'
    ensures Unescape(EscapeAll(s, quote)) == s
    decreases |s|
  {
    if s != [] {
      var tail := EscapeAll(s[1..], quote);
      assert EscapeAll(s, quote) == EscapeChar(s[0], quote) + tail;
      UnescapeChar(s[0], quote, tail);
      UnescapeEscapeAll(s[1..], quote);
      assert s == [s[0]] + s[1..];
    }
  }

  /** A text `repr` copies verbatim between the quotes. */
  predicate Plain(s: string) {
    forall k :: 0 <= k < |s| ==> s[k] != '\'' && s[k] != '"' && s[k] != '\\' && ' ' <= s[k] && s[k] != '\U{7F}'
  }

  /** `repr(s)` for a string `s`: the text between quotes, with quotes,
      backslashes and control characters escaped; a plain text only gains
      single quotes. */
  function ReprString(s: string): (r: string)
    ensures |r| >= 2
    ensures r[0] == r[|r| - 1] == QuoteFor(s)
    ensures Unescape(r[1..|r| - 1]) == s
    ensures Plain(s) ==> r == "'" + s + "'"
  {
    var q := QuoteFor(s);
    var r := [q] + EscapeAll(s, q) + [q];
    assert r[1..|r| - 1] == EscapeAll(s, q);
    UnescapeEscapeAll(s, q);
    if Plain(s) then PlainEscapeAll(s, q); r else r
  }

  /** Different strings have different `repr`s. */
  lemma ReprStringInjective(a: string, b: string)
    ensures ReprString(a) == ReprString(b) ==> a == b
  {
  }

  lemma {:induction false} PlainEscapeAll(s: string, quote: char)
    requires Plain(s)
    requires quote == '\'' || quote == '"'
    ensures EscapeAll(s, quote) == s
    decreases |s|
  {
    if s != [] {
      assert Plain(s[1..]) by {
        forall k | 0 <= k < |s[1..]|
          ensures s[1..][k] == s[k + 1]
        {
        }
      }
      PlainEscapeAll(s[1..], quote);
      assert s == [s[0]] + s[1..];
    }
  }

  /** `str(x)`: a string renders as itself, everything else as its `repr`. */
  function Str(j: Json): (r: string)
    ensures j.JStr? ==> r == j.s
    ensures j.JNull? ==> r == "None"
    ensures j.JInt? ==> r == IntToString(j.i)
    ensures j.JBool? ==> r == (if j.b then "True" else "False")
  {
    if j.JStr? then j.s else Repr(j)
  }

  /** `repr(x)` for a decoded JSON value: strings are quoted, lists
      bracketed, dicts braced, and an int is its decimal text. */
  function Repr(j: Json): (r: string)
    ensures |r| >= 1
    ensures j.JNull? ==> r == "None"
    ensures j.JBool? ==> r == (if j.b then "True" else "False")
    ensures j.JStr? ==> r == ReprString(j.s)
    ensures j.JStr? ==> |r| >= 2 && r[0] == r[|r| - 1] && (r[0] == '\'' || r[0] == '"')
    ensures j.JList? ==> |r| >= 2 && r[0] == '[' && r[|r| - 1] == ']'
    ensures j.JList? ==> (r == "[]" <==> j.items == [])
    ensures j.JList? && |j.items| == 1 ==> r == "[" + Repr(j.items[0]) + "]"
    ensures j.JObject? ==> |r| >= 2 && r[0] == '{' && r[|r| - 1] == '}'
    ensures j.JObject? ==> (r == "{}" <==> j.fields == [])
    ensures j.JInt? ==> r == IntToString(j.i)
    decreases j, 1
  {
    match j
    case JNull => "None"
    case JBool(b) => if b then "True" else "False"
    case JInt(i) => IntToString(i)
    case JStr(s) => ReprString(s)
    case JList(items) =>
      assert |items| == 1 ==> ReprItems(j, 0) == Repr(items[0]) + ReprItems(j, 1);
      "[" + ReprItems(j, 0) + "]"
    case JObject(fields) => "{" + ReprFields(j, 0) + "}"
  }

  /** The comma-separated reprs of the list elements from index `k` on. */
  function ReprItems(j: Json, k: nat): (r: string)
    requires j.JList? && k <= |j.items|
    ensures r == "" <==> k == |j.items|
    decreases j, 0, |j.items| - k
  {
    if k == |j.items| then ""
    else (if k == 0 then "" else ", ") + Repr(j.items[k]) + ReprItems(j, k + 1)
  }

  /** The comma-separated `key: value` reprs of the dict entries from index `k` on. */
  function ReprFields(j: Json, k: nat): (r: string)
    requires j.JObject? && k <= |j.fields|
    ensures r == "" <==> k == |j.fields|
    decreases j, 0, |j.fields| - k
  {
    if k == |j.fields| then ""
    else
      (if k == 0 then "" else ", ")
      + ReprString(j.fields[k].0) + ": " + Repr(j.fields[k].1)
      + ReprFields(j, k + 1)
  }
}

=== FILE: pyvalue.dfy ===
/** The JSON-like values the bot receives from the status endpoint, with the
    Python semantics the bot relies on: truthiness, `dict.get` and type names. */
module PyValue {
  import opened Results

  /** A decoded JSON value. A dict keeps its keys in insertion order; a dict
      produced by decoding never repeats a key (see `UniqueKeys`), and entry
      lists that do are not dicts Python can hold. */
  datatype Json =
    | JNull
    | JBool(b: bool)
    | JInt(i: int)
    | JStr(s: string)
    | JList(items: seq<Json>)
    | JObject(fields: seq<(string, Json)>)

  /** Python's `bool(x)`: None, False, 0 and empty containers are falsy. */
  predicate Truthy(j: Json): (r: bool)
    ensures !r <==> j in {JNull, JBool(false), JInt(0), JStr(""), JList([]), JObject([])}
  {
    match j
    case JNull => false
    case JBool(b) => b
    case JInt(i) => i != 0
    case JStr(s) => s != ""
    case JList(items) => items != []
    case JObject(fields) => fields != []
  }

  /** No key appears twice, as in every Python dict. */
  predicate UniqueKeys(fields: seq<(string, Json)>) {
    forall k, m :: 0 <= k < m < |fields| ==> fields[k].0 != fields[m].0
  }

  /** The value bound to `key` in a list of dict entries, if any. */
  function Lookup(fields: seq<(string, Json)>, key: string): (r: Option<Json>)
    ensures r.Some? <==> exists k :: 0 <= k < |fields| && fields[k].0 == key
    ensures r.Some? ==> exists k :: 0 <= k < |fields| && fields[k] == (key, r.value)
    decreases |fields|
  {
    if fields == [] then None
    else if fields[0].0 == key then Some(fields[0].1)
    else
      var rest := Lookup(fields[1..], key);
      assert forall k :: 0 < k < |fields| ==> fields[k] == fields[1..][k - 1];
      rest
  }

  /** With unique keys, as in any Python dict, the value found is the value
      of the one entry carrying the key. */
  lemma LookupUnique(fields: seq<(string, Json)>, key: string, k: nat)
    requires UniqueKeys(fields)
    requires k < |fields| && fields[k].0 == key
    ensures Lookup(fields, key) == Some(fields[k].1)
  {
    var r := Lookup(fields, key);
    var j :| 0 <= j < |fields| && fields[j] == (key, r.value);
  }

  /** `key in d` for a dict `d`. */
  predicate HasKey(j: Json, key: string): (r: bool)
    requires j.JObject?
    ensures r <==> exists k :: 0 <= k < |j.fields| && j.fields[k].0 == key
  {
    Lookup(j.fields, key).Some?
  }

  /** Python's `d.get(key)`: the bound value, or None when the key is absent. */
  function Get(j: Json, key: string): (r: Json)
    requires j.JObject?
    ensures !HasKey(j, key) ==> r == JNull
    ensures r != JNull ==> HasKey(j, key)
  {
    Lookup(j.fields, key).GetOr(JNull)
  }

  /** In a dict, `d.get(key)` is the value of the entry carrying `key`. */
  lemma GetUnique(j: Json, key: string, k: nat)
    requires j.JObject? && UniqueKeys(j.fields)
    requires k < |j.fields| && j.fields[k].0 == key
    ensures Get(j, key) == j.fields[k].1
  {
    LookupUnique(j.fields, key, k);
  }

  /** Only lists and dicts are unhashable among JSON values. */
  predicate Hashable(j: Json) {
    !j.JList? && !j.JObject?
  }

  /** `type(x).__name__`. */
  function TypeName(j: Json): (r: string)
    ensures r in {"NoneType", "bool", "int", "str", "list", "dict"}
    ensures !Hashable(j) <==> r == "list" || r == "dict"
    ensures r == "NoneType" <==> j.JNull?
    ensures r == "bool" <==> j.JBool?
    ensures r == "int" <==> j.JInt?
    ensures r == "str" <==> j.JStr?
    ensures r == "list" <==> j.JList?
    ensures r == "dict" <==> j.JObject?
  {
    match j
    case JNull => "NoneType"
    case JBool(_) => "bool"
    case JInt(_) => "int"
    case JStr(_) => "str"
    case JList(_) => "list"
    case JObject(_) => "dict"
  }
}

=== FILE: results.dfy ===
/** Optional values and results, so the bot's exceptions become return values. */
module Results {

  /** A value that may be absent (Python's `None`). */
  datatype Option<+T> = None | Some(value: T) {
    function GetOr(default: T): T {
      match this
      case Some(v) => v
      case None => default
    }
  }

  /** Either a computed value or the error the computation raised. */
  datatype Result<+T, +E> = Ok(value: T) | Err(error: E) {
    predicate IsFailure() {
      Err?
    }

    function PropagateFailure<U>(): Result<U, E>
      requires Err?
    {
      Err(error)
    }

    function Extract(): T
      requires Ok?
    {
      value
    }
  }
}
